=== FILE: README.md ===
# Agent Echo feed, modelled in Dafny

Agent Echo is a demo web app. A user writes a short persona prompt, and a hosted language
model turns it into an agent description and a first post. A timer then asks the model for
one new post per agent every 30 seconds and merges the results into a feed sorted by
timestamp. A separate stub hands out Telegram "session" ids.

This project models the logic behind those features and proves properties of it:

- The feed page is the `Page.Home` class. It holds the agents, the posts, the `isGenerating`
  guard and the `isLoadingFeed` flag. Its operations are agent creation and the generation
  cycle, with its overlap guard, per-agent result filtering, merge and flag resets.
  - The cycle's start and finish are separate steps (`BeginCycle`, `FinishCycle`), so the
    overlap guard can be reached. `GeneratePostsForAgents` runs both as one step.
  - Awaited model calls become settled outcomes passed as parameters: `Threw`, or `Returned`
    with a result that may be missing. Random ids, avatar seeds and clock readings are
    parameters too.
- The feed order is `FeedOrder`. JavaScript's `Array.prototype.sort` is stable, so the
  page's comparator gives the stable sort by descending timestamp. `SortByTimeDesc` computes
  it. The lemmas prove it is sorted, a permutation and stable, and that it is the only
  sequence with those three properties.
- The creation form is `Creator`. It covers prompt validation, the two checked calls in
  sequence, building the agent, the callback, toasts, the form reset and the loading flag.
- The post card is `PostCard`. It covers the initials fallback, including exactly when it
  throws, and the card title.
- Session ids are `Session`. The id format is `session_<time>_<digits of phone>`, with a
  parser and a round-trip proof.
- The two Telegram services are `TelegramAuth` and `TelegramServer`. The server side is a
  singleton bot instance that can be initialised, used and cleaned up.
- `Text` holds the JavaScript string operations used: `split`, the digit filter, decimal
  rendering and ASCII `toUpperCase`.

Timestamps are integers (milliseconds), not ISO-8601 strings. They compare the same way the
page's `new Date(...).getTime()` comparator does for valid dates.

The creation path inserts its post only when both calls succeed. `Agent` carries `prompt`
even though `src/lib/types.ts` does not declare it: the form builds the object with it, and
the spread keeps it.

## Model

| member | source | states |
|---|---|---|
| Page.Home.constructor | src/app/page.tsx:17-20 | no agents, no posts, no toasts, not generating, feed loading |
| Page.Home.HandleAgentCreated | src/app/page.tsx:24-37 | the agent is appended at the end of `agents`; exactly one post carrying the agent's id, description, avatar and the given text and timestamp goes to index 0; the other posts keep their order unsorted; nothing else changes |
| FeedOrder.PrependSorted | src/app/page.tsx:36 | putting a post in front keeps a sorted feed sorted exactly when the post is no earlier than the first one, so the creation path can leave the feed unsorted |
| Page.Home.BeginCycle | src/app/page.tsx:41-48 | when a cycle is running or there are no agents: no requests and no state change; otherwise the guard is raised and one request per agent carries that agent's description, in agent order |
| Page.Home.FinishCycle | src/app/page.tsx:70-94 | one error toast per thrown call; the feed is merged with the generated posts when there are any and left exactly as it was otherwise; `isGenerating` and `isLoadingFeed` both end false; agents unchanged |
| Page.Home.GeneratePostsForAgents | src/app/page.tsx:40-95 | the whole cycle as one step: guard → no-op with no requests; otherwise requests per agent, feed merged or untouched, error toasts, flags cleared |
| Page.OverlappingTriggers | src/app/page.tsx:41-48 | the first trigger issues one request per agent, carrying that agent's description, and marks the agents in flight; a second trigger while that cycle is in flight issues no request; agents, feed, toasts and `isLoadingFeed` are left alone |
| Page.Home.InitialLoadElapsed | src/app/page.tsx:101-105 | the initial-load timer clears `isLoadingFeed` only when there are no agents; nothing else changes |
| Page.Home.CreateAgent | src/app/page.tsx:129 | an agent is created exactly when the prompt is valid and both calls succeed, and it is the agent with the given id, the form's prompt, the persona description and the seeded avatar, with the post result; then the agent is appended and its first (non-empty) post is put in front; otherwise agents and posts are unchanged; the page's toasts and `isLoadingFeed` are never touched; the form is left untouched for an invalid prompt, ends not loading otherwise, is cleared with the success toast on creation, and keeps its field with the failing check's error toast on failure |
| Page.NewPosts | src/app/page.tsx:46-71 | exactly one post per agent whose call returned non-empty text, and every post made that way comes from such an agent, with that agent's id, description and avatar and the call's text and timestamp |
| Page.NewPostsInAgentOrder | src/app/page.tsx:46-71 | the generated posts follow agent order: those of the first k agents come, in full, before those of the rest, which fixes where posts with equal timestamps land in the merged feed |
| Page.CountsPartition | src/app/page.tsx:46-68 | every outcome is exactly one of: produced a post, silently dropped (missing or empty result), threw |
| Page.ErrorToasts | src/app/page.tsx:59-67 | one "Post Generation Error" toast per thrown call and none for a missing or empty result |
| Page.CycleSortsFeed | src/app/page.tsx:73-80 | after a cycle that generated posts the feed is sorted by descending timestamp, and a sorted feed stays sorted; the feed holds exactly the generated and the prior posts |
| Page.FeedAfterCycle | src/app/page.tsx:73-80 | the feed after a cycle holds as many posts as the generated and the prior ones together, and is exactly the prior feed, not re-sorted, when nothing was generated; CycleSortsFeed proves it sorted and exactly their multiset |
| Page.TwoAgentsBothSucceed | src/app/page.tsx:46-77 | two agents whose calls succeed at T1 < T2 over an older sorted feed: the feed becomes [second agent's post, first agent's post] followed by the prior posts |
| Page.OneFailsOneSucceeds | src/app/page.tsx:46-71 | first call throws, second succeeds: exactly one post (the second agent's) and one error toast |
| FeedOrder.Merge | src/app/page.tsx:76-77 | the merged feed holds exactly the generated and the prior posts (as a multiset), is sorted by descending timestamp, and keeps generated-then-prior order among equal timestamps |
| FeedOrder.SortSorted | src/app/page.tsx:77 | the sort yields non-increasing timestamps |
| FeedOrder.SortByTimeDesc | src/app/page.tsx:76-77 | the sort keeps the length of the feed; SortSorted, SortPermutes, SortStable and SortCharacterized pin it down as the stable sort by descending timestamp |
| FeedOrder.SortPermutes | src/app/page.tsx:77 | the sort is a permutation of its input |
| FeedOrder.SortStable | src/app/page.tsx:77 | posts with equal timestamps keep their relative order |
| FeedOrder.SortCharacterized | src/app/page.tsx:77 | any sorted sequence that keeps the order within every timestamp group equals the sort's result |
| FeedOrder.SortOfSorted | src/app/page.tsx:77 | sorting an already sorted feed leaves it unchanged |
| Creator.ValidatePrompt | src/components/agent-creator.tsx:25-31 | a prompt is accepted iff it has 10 to 500 characters; too short and too long get their messages |
| Creator.CheckPersona | src/components/agent-creator.tsx:52-55 | succeeds iff the persona call returned a result with a non-empty description, which it yields; a missing or empty result fails with "Failed to generate agent description.", a throw with the thrown message |
| Creator.CheckInitialPost | src/components/agent-creator.tsx:65-68 | succeeds iff the post call returned a result with non-empty text, yielding it unchanged; otherwise fails with "Failed to generate initial post for the agent." or the thrown message |
| Creator.AvatarUrl | src/components/agent-creator.tsx:61 | the avatar is the picsum.photos URL that carries the seed, sized 40 by 40 |
| Creator.CreatedToast | src/components/agent-creator.tsx:77-80 | the success toast is not destructive, is titled "Agent Created", and reads `New agent "<name>" is ready!` where the name is the description up to the first `.` (FirstSegment) |
| Creator.FailedToast | src/components/agent-creator.tsx:84-88 | the failure toast is destructive and carries the error text |
| Creator.ErrorText | src/components/agent-creator.tsx:87 | an `Error` shows its message, anything else "An unknown error occurred." |
| Creator.AgentCreator.constructor | src/components/agent-creator.tsx:39-46 | not loading, empty prompt field, no toasts |
| Creator.AgentCreator.Edit | src/components/agent-creator.tsx:108 | the field holds what was typed; nothing else changes |
| Creator.AgentCreator.OnSubmit | src/components/agent-creator.tsx:48-92 | persona failure: only the persona request was made, no callback, error toast, form kept; post failure: both requests, no callback, error toast, form kept; success: callback value is the agent with the given id, the submitted prompt, the persona description and the seeded avatar, plus exactly the post result; success toast names the agent by its description before the first `.`; form reset; `isLoading` false on every path |
| Creator.AgentCreator.Submit | src/components/agent-creator.tsx:96 | an invalid prompt shows its message and changes nothing; a valid one is submitted with the field's value and follows `onSubmit`'s three paths: persona failure, post failure (each an error toast, no agent, field kept) and success (the agent built from the field's prompt, the persona description and the seeded avatar, the success toast, field cleared) |
| PostCard.GetInitials | src/components/post-card.tsx:14-24 | throws exactly when the description is empty, a single space or starts with two spaces; the '?' fallback is unreachable because `split` always yields a word (checked by `assert false`) |
| PostCard.InitialsOfTwoWords | src/components/post-card.tsx:16-17 | two or more words with non-empty first two: their first characters, uppercased |
| PostCard.InitialsOfLongWord | src/components/post-card.tsx:18-19 | one word of length ≥ 2: its first two characters, uppercased |
| PostCard.InitialsOfOneChar | src/components/post-card.tsx:20-21 | one one-character word: that character, uppercased |
| PostCard.InitialsLength | src/components/post-card.tsx:14-22 | when the words used are non-empty, the initials exist and have 1 or 2 characters |
| PostCard.InitialsLeakUndefined | src/components/post-card.tsx:16-17 | a description starting with one space then a non-space character gets "UNDEFINED" plus that character, uppercased |
| PostCard.InitialsLeakUndefinedAfterWord | src/components/post-card.tsx:16-17 | a word followed by an empty word (a double space or a trailing space) gets the word's first letter then "UNDEFINED", uppercased |
| PostCard.InitialsOfTrailingSpace | src/components/post-card.tsx:16-17 | "Hi " gets "HUNDEFINED" |
| PostCard.PlusChars | src/components/post-card.tsx:17 | JavaScript `+` on two first characters: undefined only when both are missing (NaN); two characters when both exist; when only the first is present, that character followed by the word "undefined"; when only the second is, "undefined" followed by that character |
| PostCard.InitialsOfSpaceB | src/components/post-card.tsx:16-17 | the description " b" gets "UNDEFINEDB" |
| PostCard.IntendedInitials | src/components/post-card.tsx:14-24 | corrected initials: always 1 or 2 characters, '?' for an all-space description, otherwise made only of uppercased non-space characters of the description |
| PostCard.IntendedInitialsOfSpaceB | src/components/post-card.tsx:14-24 | the corrected initials of " b" are "B" |
| PostCard.IntendedAgreesWhereDefined | src/components/post-card.tsx:14-24 | where the words the code uses are non-empty, the corrected initials equal the code's |
| PostCard.AgentName | src/components/post-card.tsx:30 | the description before its first `.` (a non-empty, `.`-free prefix ending at a `.` or at the end), or "Agent" when the description is empty or starts with `.` |
| Text.Split | src/components/post-card.tsx:15 | `split` yields at least one separator-free segment; joining them gives the input back; exactly one segment iff there is no separator |
| Text.FirstSegment | src/components/post-card.tsx:30 | `split(sep)[0]` is the longest separator-free prefix: it ends at the first separator or at the end, and is empty iff the input is empty or starts with the separator |
| Text.Upper | src/components/post-card.tsx:17 | `toUpperCase` keeps the length and raises each lower-case ASCII letter |
| Text.Digits | src/lib/telegram-auth.ts:20 | the filtered phone number holds only `0`-`9`, and every digit of the input survives, as many times as it occurs |
| Text.DigitsAppend | src/lib/telegram-auth.ts:20 | the filter works character by character in order: filtering a concatenation concatenates the filtered parts |
| Text.DigitsIdempotent | src/lib/telegram-auth.ts:20 | filtering twice equals filtering once |
| Text.IgnoresNonDigit | src/lib/telegram-auth.ts:20 | inserting a non-digit anywhere does not change the filtered string |
| Text.DecimalString | src/lib/telegram-auth.ts:20 | `${Date.now()}` is a non-empty digit string without a leading zero |
| Text.DecimalRoundTrip | src/lib/telegram-auth.ts:20 | parsing the rendered number gives the number back |
| Session.SessionIdSegments | src/lib/server/telegram-service.ts:30 | split at `_`, an id is exactly ["session", the time, the phone's digits], so the suffix after the last `_` is the phone's digits in order |
| Session.SessionId | src/lib/telegram-auth.ts:20 | an id starts with "session_"; SessionIdSegments, SessionIdRoundTrip and SessionIdEqualIff fix the rest |
| Session.SessionIdRoundTrip | src/lib/telegram-auth.ts:20 | parsing an issued id recovers the time and the phone's digits |
| Session.SessionIdEqualIff | src/lib/telegram-auth.ts:20 | two ids are equal iff issued at the same time for phone numbers with the same digits |
| TelegramAuth.TelegramAuthService.constructor | src/lib/telegram-auth.ts:8-13 | only a non-empty token builds a service, and it is stored unchanged |
| TelegramAuth.NewTelegramAuthService | src/lib/telegram-auth.ts:8-13 | an empty token fails with "Telegram bot token is required"; any other token is stored unchanged in a new service |
| TelegramAuth.TelegramAuthService.StartAuth | src/lib/telegram-auth.ts:15-26 | the result is the session id for the phone number at the given time |
| TelegramAuth.TelegramAuthService.Cleanup | src/lib/telegram-auth.ts:28-32 | changes nothing |
| TelegramServer.TelegramService.constructor | src/lib/server/telegram-service.ts:4 | the module starts without a bot instance |
| TelegramServer.TelegramService.Initialize | src/lib/server/telegram-service.ts:9-16 | creates a bot from the token only when none exists; later calls keep and return the same instance |
| TelegramServer.TelegramService.SendAuthCode | src/lib/server/telegram-service.ts:18-35 | fails with "Telegram bot not initialized" iff there is no instance; otherwise returns the session id for the phone at the given time |
| TelegramServer.TelegramService.Cleanup | src/lib/server/telegram-service.ts:37-42 | leaves no instance, so a following `SendAuthCode` fails until `Initialize` runs again; with no instance it changes nothing |

`TelegramServer.Lifecycle` walks the server service through its life cycle with assertions:
uninitialised, initialised twice, cleaned up, then initialised again.

## Left out

- The generation flows (`src/ai/flows/*`) wrap a hosted model. Each call is reduced to its
  settled outcome, supplied as a parameter. The flow's `new Date().toISOString()` timestamp
  is an integer here.
- Concurrency and timers are not modelled.
  - The `Promise.all` fan-out becomes every call settling at once in `FinishCycle`.
  - Error toasts are raised in agent order, not in the order calls settle.
  - `setInterval`/`setTimeout` scheduling, the `useEffect` re-subscription and clean-up are
    left out. Their callbacks are the operations `GeneratePostsForAgents` and
    `InitialLoadElapsed`.
- Page.Home.BeginCycle: reads the current `isGenerating`. The page reads the value captured
  at the last render, so two triggers from the same render could both pass the guard. The
  model's guard is the idealised one.
- Races between the creation path and a cycle are not explored beyond what the separate
  begin and finish steps allow. `FinishCycle` merges into the current feed, as
  `setPosts(prev => ...)` does.
- The "Feed Update Error" handler (src/app/page.tsx:81-87) cannot be reached. Every per-agent
  promise catches its own error, and the sort does not throw. It is not modelled. The same
  holds for the `catch` blocks of `startAuth` and `sendAuthCode`.
- Creator.AgentCreator.OnSubmit: runs as one atomic step. `isLoading` is set at the start and
  cleared at the end, so its true value during the awaits is not observable.
- Date parsing is not modelled. Invalid timestamps, which make the comparator return NaN,
  are out of scope.
- `Date.now()`, `Math.random()` ids and avatar seeds are parameters.
- Console logging is not modelled.
- Text.Upper: covers ASCII letters only. JavaScript's `toUpperCase` also maps other letters
  and can lengthen a string ("ß" becomes "SS").
- PostCard.GetInitials: works on characters (code points), not UTF-16 code units. For a
  description such as "😀x" the code takes the two halves of the emoji's surrogate pair as
  its two initials, where the model takes the emoji and "X".
- Creator.ValidatePrompt: counts characters. The form library counts UTF-16 code units, which
  differs for characters outside the Basic Multilingual Plane.
- TelegramServer.TelegramService.Cleanup: takes the bot's `close()` to resolve. A `close()`
  that rejects skips the reset, so the code keeps the instance and rethrows; the model does
  not capture that path.
- The Telegram bot object is opaque apart from its identity and token. The unused static `bot` field of `TelegramService` is not modelled.
- Not part of this model: persistence and network I/O (`src/app/api/storage/route.ts`,
  `src/lib/storage-service.ts`, `src/lib/auth-context.tsx`), the auth route glue, wallet key
  generation (`src/lib/solana-wallet.ts`), and all rendering (layout, feed list, auth
  components, relative time formatting).

## Findings

| source | as written | input that shows it | evidently intended | confidence | as-written member | corrected member |
|---|---|---|---|---|---|---|
| src/components/post-card.tsx:16-17 | with two or more words, `words[0][0] + words[1][0]` is used even when a word is empty; the missing character is `undefined`, which concatenates as the text "undefined" | the description " b" (leading space) gives "UNDEFINEDB" | initials from the first letters of the non-empty words, one or two characters long | high; not executed | PostCard.InitialsLeakUndefined | PostCard.IntendedInitials |

=== FILE: creator.dfy ===
/**
 * The agent-creation form (`src/components/agent-creator.tsx`): the prompt's length check,
 * and the submission that asks the persona flow for a description, then the post flow for a
 * first post, and hands the new agent and that post to the page only when both succeed.
 * The awaited flow calls are replaced by their settled outcomes, given as parameters, as
 * are the agent's id and the random seed of its avatar URL.
 */
module Creator {
  import opened Wrappers
  import opened Domain
  import opened Text

  const MinPromptLength: nat := 10
  const MaxPromptLength: nat := 500
  const PromptTooShort := "Prompt must be at least 10 characters."
  const PromptTooLong := "Prompt cannot exceed 500 characters."

  /**
   * The form schema: `None` when the prompt is acceptable, otherwise the message shown under
   * the field. A prompt is accepted exactly when it has 10 to 500 characters.
   */
  function ValidatePrompt(prompt: string): (issue: Option<string>)
    ensures issue.None? <==> MinPromptLength <= |prompt| <= MaxPromptLength
    ensures |prompt| < MinPromptLength ==> issue == Some(PromptTooShort)
    ensures |prompt| > MaxPromptLength ==> issue == Some(PromptTooLong)
  {
    if |prompt| < MinPromptLength then Some(PromptTooShort)
    else if |prompt| > MaxPromptLength then Some(PromptTooLong)
    else None
  }

  const PersonaFailed := "Failed to generate agent description."
  const InitialPostFailed := "Failed to generate initial post for the agent."
  const UnknownError := "An unknown error occurred."

  /** The text the error toast shows for a caught value. */
  function ErrorText(thrown: Thrown): (text: string)
    ensures thrown.ErrorObject? ==> text == thrown.message
    ensures thrown.NonError? ==> text == UnknownError
  {
    match thrown
    case ErrorObject(message) => message
    case NonError => UnknownError
  }

  /**
   * The first check of the submission: the persona call must return a result with a
   * non-empty description; otherwise the submission stops with the error text the toast
   * will show.
   */
  function CheckPersona(outcome: Settled<PersonaOutput>): (r: Result<string, string>)
    ensures r.Success? <==>
      outcome.Returned? && outcome.result.Some? && outcome.result.value.agentDescription != ""
    ensures r.Success? ==> r.value == outcome.result.value.agentDescription
    ensures outcome.Threw? ==> r == Failure(ErrorText(outcome.thrown))
    ensures outcome.Returned? && r.Failure? ==> r.error == PersonaFailed
  {
    match outcome
    case Threw(thrown) => Failure(ErrorText(thrown))
    case Returned(None) => Failure(PersonaFailed)
    case Returned(Some(output)) =>
      if output.agentDescription == "" then Failure(PersonaFailed) else Success(output.agentDescription)
  }

  /**
   * The second check: the post call must return a result with non-empty text; otherwise
   * the submission stops with the error text the toast will show.
   */
  function CheckInitialPost(outcome: Settled<PostOutput>): (r: Result<PostOutput, string>)
    ensures r.Success? <==> outcome.Returned? && outcome.result.Some? && outcome.result.value.post != ""
    ensures r.Success? ==> r.value == outcome.result.value
    ensures outcome.Threw? ==> r == Failure(ErrorText(outcome.thrown))
    ensures outcome.Returned? && r.Failure? ==> r.error == InitialPostFailed
  {
    match outcome
    case Threw(thrown) => Failure(ErrorText(thrown))
    case Returned(None) => Failure(InitialPostFailed)
    case Returned(Some(output)) => if output.post == "" then Failure(InitialPostFailed) else Success(output)
  }

  /** The placeholder avatar every new agent gets, from a random seed. */
  function AvatarUrl(seed: string): (url: string)
    ensures |url| == |seed| + 33
    ensures url[..27] == "https://picsum.photos/seed/" && url[27..27 + |seed|] == seed
    ensures url[27 + |seed|..] == "/40/40"
  {
    "https://picsum.photos/seed/" + seed + "/40/40"
  }

  /** The success toast, naming the agent by its description up to the first `.`. */
  function CreatedToast(description: string): (t: Toast)
    ensures !t.destructive && t.title == "Agent Created"
    ensures var name := FirstSegment(description, '.');
      && |t.description| == |name| + 22
      && t.description[..11] == "New agent \""
      && t.description[11..11 + |name|] == name
      && t.description[11 + |name|..] == "\" is ready!"
  {
    Toast(false, "Agent Created", "New agent \"" + FirstSegment(description, '.') + "\" is ready!")
  }

  /** The failure toast: destructive, carrying the error text as its description. */
  function FailedToast(text: string): (t: Toast)
    ensures t.destructive && t.description == text
  {
    Toast(true, "Error Creating Agent", text)
  }

  /** A request made to one of the two generation flows. */
  datatype FlowCall = PersonaRequest(prompt: string) | PostRequest(agentPrompt: string)

  /** What the page's `onAgentCreated` callback receives. */
  datatype Created = Created(agent: Agent, initialPost: PostOutput)

  class AgentCreator {
    /** True while a submission is in progress. */
    var isLoading: bool
    /** The value of the form's prompt field. */
    var prompt: string
    /** The toasts raised so far. */
    var toasts: seq<Toast>

    constructor ()
      ensures !isLoading && prompt == "" && toasts == []
    {
      isLoading := false;
      prompt := "";
      toasts := [];
    }

    /** The text area writes what the user types into the prompt field. */
    method Edit(text: string)
      modifies this
      ensures prompt == text
      ensures isLoading == old(isLoading) && toasts == old(toasts)
    {
      prompt := text;
    }

    /**
     * `onSubmit`: the persona request, its check, the post request, its check, then the
     * callback, the success toast and the form reset. Any failed check or thrown call ends
     * the submission with an error toast, no callback and the form left as it was. The
     * loading flag is cleared on every path.
     */
    method OnSubmit(values: string, persona: Settled<PersonaOutput>, initialPost: Settled<PostOutput>,
                    avatarSeed: string, agentId: string)
      returns (calls: seq<FlowCall>, created: Option<Created>)
      modifies this
      ensures !isLoading
      ensures CheckPersona(persona).Failure? ==>
        && calls == [PersonaRequest(values)]
        && created == None
        && toasts == old(toasts) + [FailedToast(CheckPersona(persona).error)]
        && prompt == old(prompt)
      ensures CheckPersona(persona).Success? ==>
        calls == [PersonaRequest(values), PostRequest(CheckPersona(persona).value)]
      ensures CheckPersona(persona).Success? && CheckInitialPost(initialPost).Failure? ==>
        && created == None
        && toasts == old(toasts) + [FailedToast(CheckInitialPost(initialPost).error)]
        && prompt == old(prompt)
      ensures CheckPersona(persona).Success? && CheckInitialPost(initialPost).Success? ==>
        var description := CheckPersona(persona).value;
        && created == Some(Created(Agent(agentId, values, description, AvatarUrl(avatarSeed)),
                                   CheckInitialPost(initialPost).value))
        && toasts == old(toasts) + [CreatedToast(description)]
        && prompt == ""
    {
      isLoading := true;
      calls := [PersonaRequest(values)];
      created := None;
      var description := CheckPersona(persona);
      if description.Failure? {
        toasts := toasts + [FailedToast(description.error)];
      } else {
        var avatar := AvatarUrl(avatarSeed);
        calls := calls + [PostRequest(description.value)];
        var output := CheckInitialPost(initialPost);
        if output.Failure? {
          toasts := toasts + [FailedToast(output.error)];
        } else {
          var agent := Agent(agentId, values, description.value, avatar);
          created := Some(Created(agent, output.value));
          toasts := toasts + [CreatedToast(agent.description)];
          prompt := "";
        }
      }
      isLoading := false;
    }

    /**
     * `form.handleSubmit(onSubmit)`: the field is validated first; an invalid prompt shows
     * its message and nothing else happens, a valid one is submitted.
     */
    method Submit(persona: Settled<PersonaOutput>, initialPost: Settled<PostOutput>,
                  avatarSeed: string, agentId: string)
      returns (issue: Option<string>, calls: seq<FlowCall>, created: Option<Created>)
      modifies this
      ensures issue == ValidatePrompt(old(prompt))
      ensures issue.Some? ==> calls == [] && created == None && unchanged(this)
      ensures issue.None? ==> !isLoading
      ensures issue.None? && CheckPersona(persona).Failure? ==>
        && calls == [PersonaRequest(old(prompt))]
        && created == None
        && toasts == old(toasts) + [FailedToast(CheckPersona(persona).error)]
        && prompt == old(prompt)
      ensures issue.None? && CheckPersona(persona).Success? ==>
        calls == [PersonaRequest(old(prompt)), PostRequest(CheckPersona(persona).value)]
      ensures issue.None? && CheckPersona(persona).Success? && CheckInitialPost(initialPost).Failure? ==>
        && created == None
        && toasts == old(toasts) + [FailedToast(CheckInitialPost(initialPost).error)]
        && prompt == old(prompt)
      ensures issue.None? && CheckPersona(persona).Success? && CheckInitialPost(initialPost).Success? ==>
        var description := CheckPersona(persona).value;
        && created == Some(Created(Agent(agentId, old(prompt), description, AvatarUrl(avatarSeed)),
                                   CheckInitialPost(initialPost).value))
        && toasts == old(toasts) + [CreatedToast(description)]
        && prompt == ""
    {
      issue := ValidatePrompt(prompt);
      if issue.Some? {
        calls, created := [], None;
      } else {
        calls, created := OnSubmit(prompt, persona, initialPost, avatarSeed, agentId);
      }
    }
  }
}

=== FILE: domain.dfy ===
/**
 * The records the application passes around: agents and posts as `src/lib/types.ts` declares
 * them, the outputs of the two generation flows, how an awaited flow call settles, and the
 * toast notifications the components raise.
 */
module Domain {
  import opened Wrappers

  /**
   * A persona. `prompt` is not declared in the `Agent` interface, but the creation form
   * builds the object with it and the spread keeps it, so the runtime value carries it.
   */
  datatype Agent = Agent(id: string, prompt: string, description: string, avatar: string)

  /**
   * One feed entry. `agentDescription` and `agentAvatar` are copies of the agent's fields
   * taken when the post is made. The timestamp is in milliseconds since the epoch; the
   * application stores an ISO-8601 string and compares the parsed times.
   */
  datatype Post = Post(
    id: string,
    agentId: string,
    agentDescription: string,
    agentAvatar: string,
    content: string,
    timestamp: int)

  /** What the post-generation flow returns: the text and the time it was generated. */
  datatype PostOutput = PostOutput(post: string, timestamp: int)

  /** What the persona flow returns. */
  datatype PersonaOutput = PersonaOutput(agentDescription: string)

  /** A thrown value: an `Error` with its message, or anything else. */
  datatype Thrown = ErrorObject(message: string) | NonError

  /**
   * How an awaited flow call settles: it throws, or it returns a result that may be missing
   * (`null`/`undefined`, which the callers test for).
   */
  datatype Settled<+T> = Threw(thrown: Thrown) | Returned(result: Option<T>)

  /** A toast notification; `destructive` is the error variant. */
  datatype Toast = Toast(destructive: bool, title: string, description: string)

  /** The post a given agent gets for a generated output, with the agent's fields copied in. */
  function PostFor(id: string, agent: Agent, output: PostOutput): Post
  {
    Post(id, agent.id, agent.description, agent.avatar, output.post, output.timestamp)
  }
}

=== FILE: feed_order.dfy ===
/**
 * The order of the feed. The page sorts with
 * `(a, b) => new Date(b.timestamp).getTime() - new Date(a.timestamp).getTime()`, and
 * `Array.prototype.sort` is stable, so the result is the stable sort by descending
 * timestamp: later posts first, posts with equal timestamps in their original order.
 * `SortByTimeDesc` computes it by insertion; the lemmas show that it is sorted, a
 * permutation, stable, and the only sequence with those properties.
 */
module FeedOrder {
  import opened Domain

  /** Non-increasing timestamps from front to back. */
  predicate SortedDesc(s: seq<Post>) {
    forall i, j :: 0 <= i < j < |s| ==> s[i].timestamp >= s[j].timestamp
  }

  /** The posts of `s` stamped with time `t`, in the order they occur in `s`. */
  function OfTime(s: seq<Post>, t: int): (r: seq<Post>)
    ensures forall p :: p in r ==> p in s && p.timestamp == t
  {
    if s == [] then []
    else (if s[0].timestamp == t then [s[0]] else []) + OfTime(s[1..], t)
  }

  /** Puts `p` after every later post of `s` and before the rest. */
  function Insert(p: Post, s: seq<Post>): seq<Post>
  {
    if s == [] || s[0].timestamp <= p.timestamp then [p] + s
    else [s[0]] + Insert(p, s[1..])
  }

  /** The stable sort of `s` by descending timestamp. */
  function SortByTimeDesc(s: seq<Post>): (r: seq<Post>)
    ensures |r| == |s|
  {
    if s == [] then []
    else
      InsertPermutes(s[0], SortByTimeDesc(s[1..]));
      Insert(s[0], SortByTimeDesc(s[1..]))
  }

  lemma {:induction false} InsertSorted(p: Post, s: seq<Post>)
    requires SortedDesc(s)
    ensures SortedDesc(Insert(p, s))
    ensures forall i :: 0 <= i < |s| ==> Insert(p, s)[0].timestamp >= s[i].timestamp
  {
    if s == [] || s[0].timestamp <= p.timestamp {
    } else {
      InsertSorted(p, s[1..]);
      InsertPermutes(p, s[1..]);
      var r := Insert(p, s[1..]);
      forall i | 0 <= i < |r|
        ensures s[0].timestamp >= r[i].timestamp
      {
        assert r[i] in multiset(s[1..]) + multiset{p};
      }
    }
  }

  lemma {:induction false} InsertPermutes(p: Post, s: seq<Post>)
    ensures multiset(Insert(p, s)) == multiset(s) + multiset{p}
    ensures |Insert(p, s)| == |s| + 1
  {
    if s == [] || s[0].timestamp <= p.timestamp {
    } else {
      InsertPermutes(p, s[1..]);
      assert s == [s[0]] + s[1..];
    }
  }

  /** The sort yields non-increasing timestamps. */
  lemma {:induction false} SortSorted(s: seq<Post>)
    ensures SortedDesc(SortByTimeDesc(s))
  {
    if s != [] {
      SortSorted(s[1..]);
      InsertSorted(s[0], SortByTimeDesc(s[1..]));
    }
  }

  /** The sort neither loses nor invents a post. */
  lemma {:induction false} SortPermutes(s: seq<Post>)
    ensures multiset(SortByTimeDesc(s)) == multiset(s)
    ensures |SortByTimeDesc(s)| == |s|
  {
    if s != [] {
      SortPermutes(s[1..]);
      InsertPermutes(s[0], SortByTimeDesc(s[1..]));
      assert s == [s[0]] + s[1..];
    }
  }

  lemma {:induction false} OfTimeAppend(a: seq<Post>, b: seq<Post>, t: int)
    ensures OfTime(a + b, t) == OfTime(a, t) + OfTime(b, t)
  {
    if a == [] {
      assert a + b == b;
    } else {
      assert (a + b)[1..] == a[1..] + b;
      OfTimeAppend(a[1..], b, t);
    }
  }

  lemma {:induction false} InsertOfTime(p: Post, s: seq<Post>, t: int)
    ensures OfTime(Insert(p, s), t) == (if p.timestamp == t then [p] else []) + OfTime(s, t)
  {
    if s == [] || s[0].timestamp <= p.timestamp {
      OfTimeAppend([p], s, t);
    } else {
      InsertOfTime(p, s[1..], t);
      OfTimeAppend([s[0]], Insert(p, s[1..]), t);
    }
  }

  /** Stability: posts that share a timestamp keep their relative order. */
  lemma {:induction false} SortStable(s: seq<Post>, t: int)
    ensures OfTime(SortByTimeDesc(s), t) == OfTime(s, t)
  {
    if s != [] {
      SortStable(s[1..], t);
      InsertOfTime(s[0], SortByTimeDesc(s[1..]), t);
    }
  }

  lemma FirstGroupNonEmpty(s: seq<Post>)
    requires s != []
    ensures OfTime(s, s[0].timestamp) != []
  {
  }

  /** Two sorted sequences that agree on the order of every timestamp group are equal. */
  lemma {:induction false} SortedStableUnique(u: seq<Post>, v: seq<Post>)
    requires SortedDesc(u) && SortedDesc(v)
    requires forall t :: OfTime(u, t) == OfTime(v, t)
    ensures u == v
    decreases |u|
  {
    if u == [] || v == [] {
      if u != [] {
        FirstGroupNonEmpty(u);
        assert false;
      } else if v != [] {
        FirstGroupNonEmpty(v);
        assert false;
      }
    } else {
      var a, b := u[0].timestamp, v[0].timestamp;
      assert OfTime(v, b) != [];
      var x := OfTime(u, b)[0];
      assert x in u;
      assert a >= b;
      assert OfTime(u, a) != [];
      var y := OfTime(v, a)[0];
      assert y in v;
      assert b >= a;
      assert u[0] == OfTime(u, a)[0] == OfTime(v, a)[0] == v[0];
      forall t
        ensures OfTime(u[1..], t) == OfTime(v[1..], t)
      {
        assert u == [u[0]] + u[1..] && v == [v[0]] + v[1..];
        OfTimeAppend([u[0]], u[1..], t);
        OfTimeAppend([v[0]], v[1..], t);
        var head := OfTime([u[0]], t);
        assert OfTime(u, t) == head + OfTime(u[1..], t);
        assert OfTime(v, t) == head + OfTime(v[1..], t);
        assert (head + OfTime(u[1..], t))[|head|..] == OfTime(u[1..], t);
        assert (head + OfTime(v[1..], t))[|head|..] == OfTime(v[1..], t);
      }
      SortedStableUnique(u[1..], v[1..]);
      assert u == [u[0]] + u[1..] && v == [v[0]] + v[1..];
    }
  }

  /**
   * The sort is fully characterised: a sequence that is sorted by descending timestamp and
   * keeps the original order within every timestamp group is exactly `SortByTimeDesc(s)`.
   */
  lemma SortCharacterized(s: seq<Post>, r: seq<Post>)
    requires SortedDesc(r)
    requires forall t :: OfTime(r, t) == OfTime(s, t)
    ensures r == SortByTimeDesc(s)
  {
    SortSorted(s);
    forall t
      ensures OfTime(r, t) == OfTime(SortByTimeDesc(s), t)
    {
      SortStable(s, t);
    }
    SortedStableUnique(r, SortByTimeDesc(s));
  }

  /** Sorting an already sorted feed changes nothing. */
  lemma {:induction false} SortOfSorted(s: seq<Post>)
    requires SortedDesc(s)
    ensures SortByTimeDesc(s) == s
  {
    if s != [] {
      SortOfSorted(s[1..]);
    }
  }

  /** Sorting a sequence with one more post in front inserts that post into the sorted rest. */
  lemma SortCons(p: Post, s: seq<Post>)
    ensures SortByTimeDesc([p] + s) == Insert(p, SortByTimeDesc(s))
  {
    assert ([p] + s)[1..] == s;
  }

  /**
   * A post goes to the front of a sorted feed without re-sorting exactly when it is no
   * earlier than the feed's first post.
   */
  lemma PrependSorted(p: Post, s: seq<Post>)
    requires SortedDesc(s)
    ensures SortedDesc([p] + s) <==> (s == [] || s[0].timestamp <= p.timestamp)
  {
    if s != [] && s[0].timestamp <= p.timestamp {
      forall i, j | 0 <= i < j < |[p] + s|
        ensures ([p] + s)[i].timestamp >= ([p] + s)[j].timestamp
      {
        assert ([p] + s)[j] == s[j - 1];
        if i > 0 {
          assert ([p] + s)[i] == s[i - 1];
        } else if j > 1 {
          assert s[0].timestamp >= s[j - 1].timestamp;
        }
      }
    } else if s != [] {
      var t := [p] + s;
      assert t[0] == p && t[1] == s[0];
      assert t[0].timestamp < t[1].timestamp;
      assert !SortedDesc(t);
    }
  }

  /**
   * Two generated posts, the second later than the first, merged into a sorted feed that
   * is no later than the first: the second comes first, then the first, then the feed.
   */
  lemma MergeLaterPair(p: Post, q: Post, prior: seq<Post>)
    requires p.timestamp < q.timestamp
    requires SortedDesc(prior)
    requires prior != [] ==> prior[0].timestamp <= p.timestamp
    ensures SortByTimeDesc([p, q] + prior) == [q, p] + prior
  {
    SortOfSorted(prior);
    SortCons(p, [q] + prior);
    assert [p] + ([q] + prior) == [p, q] + prior;
    SortCons(q, prior);
    InsertPair(p, q, prior);
  }

  lemma InsertPair(p: Post, q: Post, s: seq<Post>)
    requires p.timestamp < q.timestamp
    requires s != [] ==> s[0].timestamp <= p.timestamp
    ensures Insert(p, Insert(q, s)) == [q, p] + s
  {
    assert Insert(q, s) == [q] + s;
    assert ([q] + s)[1..] == s;
    assert Insert(p, s) == [p] + s;
  }

  /**
   * The merge of a generation cycle: the generated posts go in front of the prior ones and the
   * whole sequence is sorted. The result holds exactly the posts of both, sorted by
   * descending timestamp, with equal timestamps in generated-then-prior, original order.
   */
  function Merge(generated: seq<Post>, prior: seq<Post>): (r: seq<Post>)
    ensures multiset(r) == multiset(generated) + multiset(prior)
    ensures |r| == |generated| + |prior|
    ensures SortedDesc(r)
    ensures forall t :: OfTime(r, t) == OfTime(generated, t) + OfTime(prior, t)
  {
    var all := generated + prior;
    SortSorted(all);
    SortPermutes(all);
    forall t
      ensures OfTime(SortByTimeDesc(all), t) == OfTime(generated, t) + OfTime(prior, t)
    {
      SortStable(all, t);
      OfTimeAppend(generated, prior, t);
    }
    SortByTimeDesc(all)
  }
}

=== FILE: page.dfy ===
/**
 * The feed page (`src/app/page.tsx`): the registered agents, the feed, and the two flags
 * that guard and report a generation cycle. The awaited post-generation calls of a cycle
 * are replaced by one settled outcome per agent, supplied when the cycle finishes, and the
 * random post ids by a supplied sequence of ids.
 */
module Page {
  import opened Wrappers
  import opened Domain
  import opened FeedOrder
  import opened Creator

  /** The period of the automatic generation timer, in milliseconds. */
  const PostGenerationInterval: nat := 30000

  /** The toast raised for every agent whose generation call threw. */
  const PostGenerationError := Toast(true, "Post Generation Error", "Failed to generate post for an agent.")

  /**
   * What one agent's generation call comes to: a post, nothing (a missing result or empty
   * text, which is dropped without a word), or an error (the call threw).
   */
  datatype Yield = Produced | Silent | Failed

  function YieldOf(outcome: Settled<PostOutput>): Yield {
    match outcome
    case Threw(_) => Failed
    case Returned(None) => Silent
    case Returned(Some(output)) => if output.post == "" then Silent else Produced
  }

  /** The number of outcomes of a given kind. */
  function CountOf(outcomes: seq<Settled<PostOutput>>, y: Yield): nat {
    if outcomes == [] then 0
    else (if YieldOf(outcomes[0]) == y then 1 else 0) + CountOf(outcomes[1..], y)
  }

  /** Every outcome is of exactly one kind. */
  lemma {:induction false} CountsPartition(outcomes: seq<Settled<PostOutput>>)
    ensures CountOf(outcomes, Produced) + CountOf(outcomes, Silent) + CountOf(outcomes, Failed) == |outcomes|
  {
    if outcomes != [] {
      CountsPartition(outcomes[1..]);
    }
  }

  /** The post generated for the agent at `i`, if its outcome produced one. */
  predicate ProducedAt(agents: seq<Agent>, outcomes: seq<Settled<PostOutput>>, ids: seq<string>, i: int, p: Post)
    requires |outcomes| == |agents| && |ids| == |agents|
  {
    0 <= i < |agents| && YieldOf(outcomes[i]) == Produced
    && p == PostFor(ids[i], agents[i], outcomes[i].result.value)
  }

  /**
   * The posts a cycle generated, in agent order: one for every agent whose call returned
   * non-empty text, stamped with that agent's id, description and avatar and the call's text
   * and timestamp, and nothing for the agents whose call threw or came back empty.
   */
  function NewPosts(agents: seq<Agent>, outcomes: seq<Settled<PostOutput>>, ids: seq<string>): (r: seq<Post>)
    requires |outcomes| == |agents| && |ids| == |agents|
    ensures |r| == CountOf(outcomes, Produced)
    ensures forall p :: p in r ==> exists i :: ProducedAt(agents, outcomes, ids, i, p)
    ensures forall i :: 0 <= i < |agents| && YieldOf(outcomes[i]) == Produced ==>
      PostFor(ids[i], agents[i], outcomes[i].result.value) in r
  {
    if agents == [] then []
    else
      var rest := NewPosts(agents[1..], outcomes[1..], ids[1..]);
      assert forall p :: p in rest ==> exists i :: ProducedAt(agents, outcomes, ids, i, p) by {
        forall p | p in rest
          ensures exists i :: ProducedAt(agents, outcomes, ids, i, p)
        {
          var j :| ProducedAt(agents[1..], outcomes[1..], ids[1..], j, p);
          assert ProducedAt(agents, outcomes, ids, j + 1, p);
        }
      }
      assert forall i :: 1 <= i < |agents| && YieldOf(outcomes[i]) == Produced ==>
        PostFor(ids[i], agents[i], outcomes[i].result.value) in rest by {
        forall i | 1 <= i < |agents| && YieldOf(outcomes[i]) == Produced
          ensures PostFor(ids[i], agents[i], outcomes[i].result.value) in rest
        {
          assert agents[1..][i - 1] == agents[i];
          assert outcomes[1..][i - 1] == outcomes[i];
          assert ids[1..][i - 1] == ids[i];
        }
      }
      if YieldOf(outcomes[0]) == Produced then
        assert ProducedAt(agents, outcomes, ids, 0, PostFor(ids[0], agents[0], outcomes[0].result.value));
        [PostFor(ids[0], agents[0], outcomes[0].result.value)] + rest
      else
        rest
  }

  /**
   * The generated posts keep agent order: the posts of the first `k` agents come, in full,
   * before those of the rest. With the one-agent case fixed by `NewPosts`'s own contract
   * (its post when the call produced one, nothing otherwise), this pins the whole sequence.
   */
  lemma {:induction false} NewPostsInAgentOrder(agents: seq<Agent>, outcomes: seq<Settled<PostOutput>>,
                                                ids: seq<string>, k: nat)
    requires |outcomes| == |agents| && |ids| == |agents|
    requires k <= |agents|
    ensures NewPosts(agents, outcomes, ids)
         == NewPosts(agents[..k], outcomes[..k], ids[..k]) + NewPosts(agents[k..], outcomes[k..], ids[k..])
    decreases k
  {
    if k == 0 {
      assert agents[..0] == [] && agents[0..] == agents;
      assert outcomes[0..] == outcomes && ids[0..] == ids;
    } else {
      NewPostsInAgentOrder(agents[1..], outcomes[1..], ids[1..], k - 1);
      assert agents[..k][1..] == agents[1..][..k - 1];
      assert outcomes[..k][1..] == outcomes[1..][..k - 1];
      assert ids[..k][1..] == ids[1..][..k - 1];
      assert agents[1..][k - 1..] == agents[k..];
      assert outcomes[1..][k - 1..] == outcomes[k..];
      assert ids[1..][k - 1..] == ids[k..];
    }
  }

  /** The toasts of a cycle: one per agent whose call threw, none for an empty result. */
  function ErrorToasts(outcomes: seq<Settled<PostOutput>>): (r: seq<Toast>)
    ensures |r| == CountOf(outcomes, Failed)
    ensures forall k :: 0 <= k < |r| ==> r[k] == PostGenerationError
  {
    if outcomes == [] then []
    else (if YieldOf(outcomes[0]) == Failed then [PostGenerationError] else []) + ErrorToasts(outcomes[1..])
  }

  /** The feed after a cycle: untouched when nothing was generated, merged otherwise. */
  function FeedAfterCycle(generated: seq<Post>, prior: seq<Post>): (r: seq<Post>)
    ensures |r| == |generated| + |prior|
    ensures generated == [] ==> r == prior
  {
    if generated == [] then prior else Merge(generated, prior)
  }

  /** A cycle keeps a sorted feed sorted; one that generated something always leaves it sorted. */
  lemma CycleSortsFeed(generated: seq<Post>, prior: seq<Post>)
    requires generated != [] || SortedDesc(prior)
    ensures SortedDesc(FeedAfterCycle(generated, prior))
    ensures multiset(FeedAfterCycle(generated, prior)) == multiset(generated) + multiset(prior)
  {
  }

  /**
   * Two agents whose calls both succeed, the second later than the first, over a sorted
   * feed no later than either: the feed gains the second agent's post, then the first's,
   * then the prior posts in their order.
   */
  lemma TwoAgentsBothSucceed(a: Agent, b: Agent, outA: PostOutput, outB: PostOutput,
                             idA: string, idB: string, prior: seq<Post>)
    requires outA.post != "" && outB.post != ""
    requires outA.timestamp < outB.timestamp
    requires SortedDesc(prior)
    requires forall k :: 0 <= k < |prior| ==> prior[k].timestamp <= outA.timestamp
    ensures FeedAfterCycle(
              NewPosts([a, b], [Returned(Some(outA)), Returned(Some(outB))], [idA, idB]), prior)
            == [PostFor(idB, b, outB), PostFor(idA, a, outA)] + prior
  {
    TwoProduced(a, b, outA, outB, idA, idB);
    MergeLaterPair(PostFor(idA, a, outA), PostFor(idB, b, outB), prior);
  }

  lemma TwoProduced(a: Agent, b: Agent, outA: PostOutput, outB: PostOutput, idA: string, idB: string)
    requires outA.post != "" && outB.post != ""
    ensures NewPosts([a, b], [Returned(Some(outA)), Returned(Some(outB))], [idA, idB])
            == [PostFor(idA, a, outA), PostFor(idB, b, outB)]
  {
    var outcomes: seq<Settled<PostOutput>> := [Returned(Some(outA)), Returned(Some(outB))];
    assert [a, b][1..] == [b] && outcomes[1..] == [Returned(Some(outB))] && [idA, idB][1..] == [idB];
    assert NewPosts([b], [Returned(Some(outB))], [idB]) == [PostFor(idB, b, outB)];
  }

  /**
   * Of two agents, the first's call throws and the second's succeeds: exactly one post is
   * generated, the second agent's, and exactly one error toast is raised.
   */
  lemma OneFailsOneSucceeds(a: Agent, b: Agent, thrown: Thrown, outB: PostOutput, idA: string, idB: string)
    requires outB.post != ""
    ensures NewPosts([a, b], [Threw(thrown), Returned(Some(outB))], [idA, idB]) == [PostFor(idB, b, outB)]
    ensures ErrorToasts([Threw(thrown), Returned(Some(outB))]) == [PostGenerationError]
  {
    var outcomes: seq<Settled<PostOutput>> := [Threw(thrown), Returned(Some(outB))];
    assert [a, b][1..] == [b] && outcomes[1..] == [Returned(Some(outB))] && [idA, idB][1..] == [idB];
    assert NewPosts([b], [Returned(Some(outB))], [idB]) == [PostFor(idB, b, outB)];
    assert ErrorToasts([Returned(Some(outB))]) == [];
  }

  class Home {
    var agents: seq<Agent>
    var posts: seq<Post>
    var isGenerating: bool
    var isLoadingFeed: bool
    /** The toasts raised so far. */
    var toasts: seq<Toast>
    /** The agents the running cycle asked for posts (the list its `map` closed over). */
    var inFlight: seq<Agent>

    /** A cycle is running exactly when it has agents waiting on a result. */
    ghost predicate Valid()
      reads this
    {
      isGenerating == (inFlight != [])
    }

    constructor ()
      ensures Valid()
      ensures agents == [] && posts == [] && toasts == [] && inFlight == []
      ensures !isGenerating && isLoadingFeed
    {
      agents, posts, toasts, inFlight := [], [], [], [];
      isGenerating, isLoadingFeed := false, true;
    }

    /**
     * `handleAgentCreated`: the agent goes at the end of the registry and its first post at
     * the front of the feed; the rest of the feed keeps its order and is not re-sorted.
     */
    method HandleAgentCreated(newAgent: Agent, initialPost: PostOutput, postId: string)
      requires Valid()
      modifies this
      ensures Valid()
      ensures agents == old(agents) + [newAgent]
      ensures posts == [PostFor(postId, newAgent, initialPost)] + old(posts)
      ensures isGenerating == old(isGenerating) && isLoadingFeed == old(isLoadingFeed)
      ensures toasts == old(toasts) && inFlight == old(inFlight)
    {
      agents := agents + [newAgent];
      var newPost := PostFor(postId, newAgent, initialPost);
      posts := [newPost] + posts;
    }

    /**
     * The start of `generatePostsForAgents`: while a cycle runs or when there are no agents
     * nothing happens and nothing is requested; otherwise the flag is raised and one post
     * request goes out per agent, carrying that agent's description.
     */
    method BeginCycle() returns (requests: seq<string>)
      requires Valid()
      modifies this
      ensures Valid()
      ensures old(isGenerating) || old(agents) == [] ==> requests == [] && unchanged(this)
      ensures !old(isGenerating) && old(agents) != [] ==>
        && isGenerating && inFlight == old(agents)
        && |requests| == |agents|
        && (forall i :: 0 <= i < |agents| ==> requests[i] == agents[i].description)
      ensures agents == old(agents) && posts == old(posts)
      ensures isLoadingFeed == old(isLoadingFeed) && toasts == old(toasts)
    {
      if isGenerating || |agents| == 0 {
        return [];
      }
      var registered := agents;
      isGenerating := true;
      inFlight := registered;
      requests := seq(|registered|, i requires 0 <= i < |registered| => registered[i].description);
    }

    /**
     * The end of a cycle, once every call has settled: an error toast per thrown call, the
     * generated posts merged into the current feed when there are any (the feed is left
     * exactly as it is when there are none), and both flags cleared.
     */
    method FinishCycle(outcomes: seq<Settled<PostOutput>>, ids: seq<string>)
      requires Valid() && isGenerating
      requires |outcomes| == |inFlight| && |ids| == |inFlight|
      modifies this
      ensures Valid()
      ensures posts == FeedAfterCycle(NewPosts(old(inFlight), outcomes, ids), old(posts))
      ensures toasts == old(toasts) + ErrorToasts(outcomes)
      ensures !isGenerating && !isLoadingFeed && inFlight == []
      ensures agents == old(agents)
    {
      toasts := toasts + ErrorToasts(outcomes);
      var generated := NewPosts(inFlight, outcomes, ids);
      if |generated| > 0 {
        posts := Merge(generated, posts);
      }
      isGenerating := false;
      inFlight := [];
      if isLoadingFeed {
        isLoadingFeed := false;
      }
    }

    /**
     * `generatePostsForAgents` as one step, with every call settled at once. Past the guard
     * the feed gains exactly the generated posts and ends sorted when there was one; the
     * flags end cleared whatever the outcomes.
     */
    method GeneratePostsForAgents(outcomes: seq<Settled<PostOutput>>, ids: seq<string>)
      returns (requests: seq<string>)
      requires Valid()
      requires |outcomes| == |agents| && |ids| == |agents|
      modifies this
      ensures Valid()
      ensures agents == old(agents)
      ensures old(isGenerating) || old(agents) == [] ==> requests == [] && unchanged(this)
      ensures !old(isGenerating) && old(agents) != [] ==>
        && |requests| == |agents|
        && (forall i :: 0 <= i < |agents| ==> requests[i] == agents[i].description)
        && posts == FeedAfterCycle(NewPosts(agents, outcomes, ids), old(posts))
        && toasts == old(toasts) + ErrorToasts(outcomes)
        && !isGenerating && !isLoadingFeed
    {
      requests := BeginCycle();
      if requests != [] {
        FinishCycle(outcomes, ids);
      }
    }

    /**
     * The page's initial loading timer: when it fires with no agents registered, the feed
     * stops showing as loading.
     */
    method InitialLoadElapsed()
      requires Valid()
      modifies this
      ensures Valid()
      ensures isLoadingFeed == (old(isLoadingFeed) && old(agents) != [])
      ensures agents == old(agents) && posts == old(posts) && toasts == old(toasts)
      ensures isGenerating == old(isGenerating) && inFlight == old(inFlight)
    {
      if |agents| == 0 {
        isLoadingFeed := false;
      }
    }

    /**
     * The creation form wired to `handleAgentCreated`: the registry and the feed change only
     * when the form reports a created agent, by that agent and its first post.
     */
    method CreateAgent(form: AgentCreator, persona: Settled<PersonaOutput>, initialPost: Settled<PostOutput>,
                       avatarSeed: string, agentId: string, postId: string)
      returns (created: Option<Created>)
      requires Valid()
      modifies this, form
      ensures Valid()
      ensures created.None? ==> agents == old(agents) && posts == old(posts)
      ensures created.Some? ==>
        && agents == old(agents) + [created.value.agent]
        && posts == [PostFor(postId, created.value.agent, created.value.initialPost)] + old(posts)
        && created.value.agent.prompt == old(form.prompt)
        && created.value.initialPost.post != ""
      ensures created.Some? <==>
        && ValidatePrompt(old(form.prompt)).None?
        && CheckPersona(persona).Success?
        && CheckInitialPost(initialPost).Success?
      ensures created.Some? ==>
        created.value == Created(Agent(agentId, old(form.prompt), CheckPersona(persona).value, AvatarUrl(avatarSeed)),
                                 CheckInitialPost(initialPost).value)
      ensures isGenerating == old(isGenerating) && inFlight == old(inFlight)
      ensures toasts == old(toasts) && isLoadingFeed == old(isLoadingFeed)
      ensures ValidatePrompt(old(form.prompt)).Some? ==> unchanged(form)
      ensures ValidatePrompt(old(form.prompt)).None? ==> !form.isLoading
      ensures created.Some? ==>
        form.prompt == "" && form.toasts == old(form.toasts) + [CreatedToast(created.value.agent.description)]
      ensures ValidatePrompt(old(form.prompt)).None? && created.None? ==>
        && form.prompt == old(form.prompt)
        && form.toasts == old(form.toasts) + [FailedToast(
             if CheckPersona(persona).Failure? then CheckPersona(persona).error
             else CheckInitialPost(initialPost).error)]
    {
      var issue, calls;
      issue, calls, created := form.Submit(persona, initialPost, avatarSeed, agentId);
      if created.Some? {
        HandleAgentCreated(created.value.agent, created.value.initialPost, postId);
      }
    }
  }

  /**
   * Two triggers before the first cycle settles (the timer firing while a manual run is in
   * flight): the first issues one request per agent, the second is swallowed by the guard.
   */
  method OverlappingTriggers(home: Home) returns (first: seq<string>, second: seq<string>)
    requires home.Valid() && !home.isGenerating && home.agents != []
    modifies home
    ensures second == []
    ensures home.agents == old(home.agents) && home.inFlight == old(home.agents)
    ensures |first| == |home.agents| && forall i :: 0 <= i < |first| ==> first[i] == home.agents[i].description
    ensures home.isGenerating && home.posts == old(home.posts)
    ensures home.toasts == old(home.toasts) && home.isLoadingFeed == old(home.isLoadingFeed)
  {
    first := home.BeginCycle();
    second := home.BeginCycle();
  }
}

=== FILE: post_card.dfy ===
/**
 * The display helpers of a post card (`src/components/post-card.tsx`): the initials shown
 * when a post has no avatar, and the agent name shown as the card title.
 */
module PostCard {
  import opened Wrappers
  import opened Text

  /** The words of a description: `description.split(' ')`. */
  function Words(description: string): seq<string> {
    Split(description, ' ')
  }

  /** `s[i]` in JavaScript: the character, or `undefined` past the end. */
  function CharAt(s: string, i: nat): Option<char> {
    if i < |s| then Some(s[i]) else None
  }

  /**
   * `x + y` for two values that are each a one-character string or `undefined`: a string
   * concatenation, where `undefined` reads as the word "undefined", except that
   * `undefined + undefined` is the number NaN (`None` here), which has no `toUpperCase`.
   */
  function PlusChars(x: Option<char>, y: Option<char>): (r: Option<string>)
    ensures r.None? <==> x.None? && y.None?
    ensures x.Some? && y.Some? ==> r == Some([x.value, y.value])
    ensures x.Some? && y.None? ==> r == Some([x.value] + "undefined")
    ensures x.None? && y.Some? ==> r == Some("undefined" + [y.value])
  {
    match (x, y)
    case (Some(a), Some(b)) => Some([a, b])
    case (Some(a), None) => Some([a] + "undefined")
    case (None, Some(b)) => Some("undefined" + [b])
    case (None, None) => None
  }

  /**
   * `getInitials` as written: `None` stands for the TypeError it throws when it calls
   * `toUpperCase` on `undefined` or NaN. It throws exactly when the description is empty,
   * is a single space, or starts with two spaces; every other description gets a string.
   */
  function GetInitials(description: string): (r: Option<string>)
    ensures r.None? <==>
      description == [] || (description[0] == ' ' && (|description| == 1 || description[1] == ' '))
  {
    var words := Words(description);
    WordsHead(description);
    if |words| >= 2 then
      match PlusChars(CharAt(words[0], 0), CharAt(words[1], 0))
      case Some(s) => Some(Upper(s))
      case None => None
    else if |words| == 1 && |words[0]| >= 2 then
      Some(Upper([words[0][0], words[0][1]]))
    else if |words| == 1 then
      match CharAt(words[0], 0)
      case Some(c) => Some(Upper([c]))
      case None => None
    else
      // `split` always yields at least one word, so the '?' fallback is never reached
      assert false; Some("?")
  }

  /** How the first two words of a description look, in terms of its first characters. */
  lemma WordsHead(description: string)
    ensures Words(description)[0] == [] <==> (description == [] || description[0] == ' ')
    ensures description != [] && description[0] == ' ' ==>
      |Words(description)| >= 2 &&
      (Words(description)[1] == [] <==> (|description| == 1 || description[1] == ' ')) &&
      (|description| >= 2 && description[1] != ' ' ==> Words(description)[1][0] == description[1])
  {
    var f := FirstSegment(description, ' ');
    if description != [] && description[0] == ' ' {
      var rest := description[1..];
      assert Words(description) == [[]] + Split(rest, ' ');
      var g := FirstSegment(rest, ' ');
      assert Words(description)[1] == g;
      if |rest| >= 1 && rest[0] != ' ' {
        assert g[0] == rest[0];
      }
    }
  }

  /** With two or more words whose first two are non-empty: their first letters, raised. */
  lemma InitialsOfTwoWords(description: string)
    requires |Words(description)| >= 2
    requires Words(description)[0] != [] && Words(description)[1] != []
    ensures GetInitials(description) == Some(Upper([Words(description)[0][0], Words(description)[1][0]]))
  {
  }

  /** A single word of two or more characters: its first two characters, raised. */
  lemma InitialsOfLongWord(description: string)
    requires ' ' !in description && |description| >= 2
    ensures GetInitials(description) == Some(Upper(description[..2]))
  {
    SplitNoSeparator(description, ' ');
    assert [description[0], description[1]] == description[..2];
  }

  /** A single one-character word: that character, raised. */
  lemma InitialsOfOneChar(c: char)
    requires c != ' '
    ensures GetInitials([c]) == Some([ToUpper(c)])
  {
    SplitNoSeparator([c], ' ');
    assert Upper([c]) == [ToUpper(c)];
  }

  /** When the words it uses are non-empty, the initials have one or two characters. */
  lemma InitialsLength(description: string)
    requires Words(description)[0] != []
    requires |Words(description)| >= 2 ==> Words(description)[1] != []
    ensures GetInitials(description).Some?
    ensures 1 <= |GetInitials(description).value| <= 2
  {
    WordsHead(description);
  }

  /**
   * The defect of the code as written: a description that starts with one space and then
   * a letter gets the word "UNDEFINED" in its initials, because the empty first word has no
   * first character and `undefined + "b"` is the string "undefinedb".
   */
  lemma InitialsLeakUndefined(description: string)
    requires |description| >= 2 && description[0] == ' ' && description[1] != ' '
    ensures GetInitials(description) == Some(Upper("undefined" + [description[1]]))
    ensures |GetInitials(description).value| == 10
  {
    WordsHead(description);
  }

  /**
   * The same defect from the other side: a word followed by an empty word (a double space,
   * or a single trailing space) gets the word's first letter and then "UNDEFINED", because
   * `"H" + undefined` is the string "Hundefined".
   */
  lemma InitialsLeakUndefinedAfterWord(word: string, rest: string)
    requires word != [] && ' ' !in word
    requires rest == [] || rest[0] == ' '
    ensures GetInitials(word + [' '] + rest) == Some(Upper([word[0]] + "undefined"))
  {
    SplitAfterPrefix(word, ' ', rest);
    WordsHead(rest);
  }

  /** A concrete instance: "Hi " (with a trailing space) gets the initials "HUNDEFINED". */
  lemma InitialsOfTrailingSpace()
    ensures GetInitials("Hi ") == Some("HUNDEFINED")
  {
    assert "Hi " == "Hi" + [' '] + "";
    InitialsLeakUndefinedAfterWord("Hi", "");
    UpperHUndefined();
  }

  lemma UpperHUndefined()
    ensures Upper(['H'] + "undefined") == "HUNDEFINED"
  {
    var u := Upper(['H'] + "undefined");
    assert |u| == 10;
    forall i | 0 <= i < 10
      ensures u[i] == "HUNDEFINED"[i]
    {
    }
  }

  /** A concrete instance: the description " b" gets the initials "UNDEFINEDB". */
  lemma InitialsOfSpaceB()
    ensures GetInitials(" b") == Some("UNDEFINEDB")
  {
    InitialsLeakUndefined(" b");
    var u := Upper("undefined" + ['b']);
    assert u == "UNDEFINEDB" by {
      assert |u| == 10;
      forall i | 0 <= i < 10
        ensures u[i] == "UNDEFINEDB"[i]
      {
      }
    }
  }

  // -----------------------------------------------------------------------------------------
  // The evidently intended initials: first letters of the first two NON-EMPTY words
  // -----------------------------------------------------------------------------------------

  /** The non-empty words, in order. */
  function NonEmptyWords(words: seq<string>): (r: seq<string>)
    ensures forall k :: 0 <= k < |r| ==> r[k] != [] && r[k] in words
    ensures words != [] && words[0] != [] ==> r != [] && r[0] == words[0]
    ensures |words| >= 2 && words[0] != [] && words[1] != [] ==> |r| >= 2 && r[1] == words[1]
    ensures |words| == 1 && words[0] != [] ==> r == words
  {
    if words == [] then []
    else if words[0] == [] then NonEmptyWords(words[1..])
    else [words[0]] + NonEmptyWords(words[1..])
  }

  /** Every character of every word occurs in the description. */
  lemma {:induction false} WordCharsOccur(s: string, sep: char, i: nat, k: nat)
    requires i < |Split(s, sep)| && k < |Split(s, sep)[i]|
    ensures Split(s, sep)[i][k] in s
    decreases |s|
  {
    if |s| > 0 {
      var rest := Split(s[1..], sep);
      if s[0] == sep {
        WordCharsOccur(s[1..], sep, i - 1, k);
      } else if i == 0 && k == 0 {
      } else if i == 0 {
        WordCharsOccur(s[1..], sep, 0, k - 1);
      } else {
        WordCharsOccur(s[1..], sep, i, k);
      }
    }
  }

  /** A description with a non-space character has a non-empty word. */
  lemma {:induction false} SomeWordNonEmpty(s: string, j: nat)
    requires j < |s| && s[j] != ' '
    ensures NonEmptyWords(Split(s, ' ')) != []
    decreases |s|
  {
    if s[0] == ' ' {
      SomeWordNonEmpty(s[1..], j - 1);
      assert Split(s, ' ') == [[]] + Split(s[1..], ' ');
      assert Split(s, ' ')[1..] == Split(s[1..], ' ');
    }
  }

  /**
   * The initials the function is evidently meant to give: the raised first letters of the
   * first two non-empty words, or the first two letters of the only one, or '?' when the
   * description is all spaces. The result always has one or two characters, and they are
   * raised characters of the description, never parts of the word "undefined".
   */
  function IntendedInitials(description: string): (r: string)
    ensures 1 <= |r| <= 2
    ensures (forall i :: 0 <= i < |description| ==> description[i] == ' ') ==> r == "?"
    ensures (exists i :: 0 <= i < |description| && description[i] != ' ') ==>
      forall k :: 0 <= k < |r| ==> exists c :: c in description && c != ' ' && r[k] == ToUpper(c)
  {
    var all := Split(description, ' ');
    var words := NonEmptyWords(all);
    var r :=
      if |words| >= 2 then Upper([words[0][0], words[1][0]])
      else if |words| == 1 then Upper(words[0][..if |words[0]| >= 2 then 2 else 1])
      else "?";
    NonEmptyWordsExist(description);
    NonEmptyWordChars(description);
    r
  }

  /** A description has a non-empty word exactly when it has a non-space character. */
  lemma NonEmptyWordsExist(description: string)
    ensures NonEmptyWords(Split(description, ' ')) != [] <==>
      exists i :: 0 <= i < |description| && description[i] != ' '
  {
    var all := Split(description, ' ');
    var words := NonEmptyWords(all);
    if words != [] {
      var i :| 0 <= i < |all| && all[i] == words[0];
      WordCharsOccur(description, ' ', i, 0);
    }
    if exists i :: 0 <= i < |description| && description[i] != ' ' {
      var i :| 0 <= i < |description| && description[i] != ' ';
      SomeWordNonEmpty(description, i);
    }
  }

  /** The characters of the non-empty words are non-space characters of the description. */
  lemma NonEmptyWordChars(description: string)
    ensures var words := NonEmptyWords(Split(description, ' '));
      forall m, k :: 0 <= m < |words| && 0 <= k < |words[m]| ==>
        words[m][k] in description && words[m][k] != ' '
  {
    var all := Split(description, ' ');
    var words := NonEmptyWords(all);
    forall m, k | 0 <= m < |words| && 0 <= k < |words[m]|
      ensures words[m][k] in description && words[m][k] != ' '
    {
      var i :| 0 <= i < |all| && all[i] == words[m];
      WordCharsOccur(description, ' ', i, k);
    }
  }

  /** The corrected initials of " b" are just "B". */
  lemma IntendedInitialsOfSpaceB()
    ensures IntendedInitials(" b") == "B"
  {
    assert " b" == "" + [' '] + "b";
    SplitAfterPrefix("", ' ', "b");
    SplitNoSeparator("b", ' ');
    assert Split(" b", ' ') == ["", "b"];
    assert NonEmptyWords(["", "b"]) == ["b"] by {
      assert ["", "b"][1..] == ["b"];
    }
    assert "b"[..1] == "b";
  }

  /**
   * The correction changes nothing where the code as written works: when the words it
   * uses are non-empty, both give the same initials.
   */
  lemma IntendedAgreesWhereDefined(description: string)
    requires Words(description)[0] != []
    requires |Words(description)| >= 2 ==> Words(description)[1] != []
    ensures GetInitials(description) == Some(IntendedInitials(description))
  {
    var words := Words(description);
    if |words| == 1 {
      var w := words[0];
      if |w| >= 2 {
        assert w[..2] == [w[0], w[1]];
      } else {
        assert w[..1] == [w[0]];
      }
    }
  }

  // -----------------------------------------------------------------------------------------
  // The card title
  // -----------------------------------------------------------------------------------------

  /**
   * `description.split('.')[0] || 'Agent'`: the description up to its first `.`, or
   * "Agent" when that is empty, that is, when the description is empty or starts with `.`.
   */
  function AgentName(description: string): (name: string)
    ensures (description == [] || description[0] == '.') ==> name == "Agent"
    ensures !(description == [] || description[0] == '.') ==>
      && name != []
      && '.' !in name
      && |name| <= |description| && description[..|name|] == name
      && (|name| == |description| || description[|name|] == '.')
  {
    var first := FirstSegment(description, '.');
    if first == [] then "Agent" else first
  }
}

=== FILE: session.dfy ===
/**
 * The session id both Telegram services hand out:
 * `session_${Date.now()}_${phoneNumber.replace(/[^0-9]/g, '')}`, with the clock reading
 * supplied as a parameter. `ParseSessionId` reads one back; the round trip shows that the
 * id records exactly the time and the phone number's digits.
 */
module Session {
  import opened Wrappers
  import opened Text

  const Prefix := "session"

  /** The session id issued at time `now` (milliseconds) for `phone`. */
  function SessionId(now: nat, phone: string): (id: string)
    ensures |id| > |Prefix| + 2 && id[..|Prefix| + 1] == Prefix + "_"
  {
    Prefix + "_" + DecimalString(now) + "_" + Digits(phone)
  }

  /** The time and the digit string recorded in a session id, if it has that shape. */
  function ParseSessionId(id: string): Option<(nat, string)>
  {
    var parts := Split(id, '_');
    if |parts| == 3 && parts[0] == Prefix && parts[1] != [] && AllDigits(parts[1]) && AllDigits(parts[2])
    then Some((ParseDecimal(parts[1]), parts[2]))
    else None
  }

  lemma NoSeparatorInDigits(s: string, sep: char)
    requires AllDigits(s) && !IsDigit(sep)
    ensures sep !in s
  {
    forall i | 0 <= i < |s|
      ensures s[i] != sep
    {
    }
  }

  /**
   * Split at its underscores, a session id has exactly three parts: "session", the time
   * in decimal, and the phone number's digits in order; so the suffix after the last
   * underscore is exactly those digits.
   */
  lemma SessionIdSegments(now: nat, phone: string)
    ensures Split(SessionId(now, phone), '_') == [Prefix, DecimalString(now), Digits(phone)]
  {
    var t, d := DecimalString(now), Digits(phone);
    NoSeparatorInDigits(t, '_');
    NoSeparatorInDigits(d, '_');
    assert SessionId(now, phone) == Prefix + ['_'] + (t + ['_'] + d);
    SplitAfterPrefix(Prefix, '_', t + ['_'] + d);
    SplitAfterPrefix(t, '_', d);
    SplitNoSeparator(d, '_');
  }

  /** Reading an issued id back gives the time and the digits it was made from. */
  lemma SessionIdRoundTrip(now: nat, phone: string)
    ensures ParseSessionId(SessionId(now, phone)) == Some((now, Digits(phone)))
  {
    SessionIdSegments(now, phone);
    DecimalRoundTrip(now);
  }

  /**
   * Two ids are equal exactly when they were issued at the same time for phone numbers
   * with the same digits: formatting characters in the phone number make no difference.
   */
  lemma SessionIdEqualIff(now1: nat, phone1: string, now2: nat, phone2: string)
    ensures SessionId(now1, phone1) == SessionId(now2, phone2) <==>
      now1 == now2 && Digits(phone1) == Digits(phone2)
  {
    if SessionId(now1, phone1) == SessionId(now2, phone2) {
      SessionIdRoundTrip(now1, phone1);
      SessionIdRoundTrip(now2, phone2);
    }
  }
}

=== FILE: telegram_auth.dfy ===
/**
 * The client-side Telegram authentication stub (`src/lib/telegram-auth.ts`): it insists on
 * a bot token, issues session ids, and its cleanup does nothing.
 */
module TelegramAuth {
  import opened Wrappers
  import opened Session

  const TokenRequired := "Telegram bot token is required"

  class TelegramAuthService {
    var token: string

    constructor (token: string)
      requires token != ""
      ensures this.token == token
    {
      this.token := token;
    }

    /** `startAuth`: the session id for the phone number at the supplied clock reading. */
    method StartAuth(phoneNumber: string, now: nat) returns (sessionId: string)
      ensures sessionId == SessionId(now, phoneNumber)
    {
      sessionId := SessionId(now, phoneNumber);
    }

    /** `cleanup` is a no-op. */
    method Cleanup()
      ensures unchanged(this)
    {
    }
  }

  /**
   * `new TelegramAuthService(token)`: an empty token is refused with
   * "Telegram bot token is required"; any other is stored unchanged in a new service.
   */
  method NewTelegramAuthService(token: string) returns (r: Result<TelegramAuthService, string>)
    ensures r.Failure? <==> token == ""
    ensures r.Failure? ==> r.error == TokenRequired
    ensures r.Success? ==> fresh(r.value) && r.value.token == token
  {
    if token == "" {
      return Failure(TokenRequired);
    }
    var service := new TelegramAuthService(token);
    return Success(service);
  }
}

=== FILE: telegram_server.dfy ===
/**
 * The server-side Telegram service (`src/lib/server/telegram-service.ts`): a bot instance
 * created on first initialisation, used to issue session ids, and dropped on cleanup. The
 * module-level `botInstance` is a field of a `TelegramService` object; the bot itself is
 * opaque apart from its identity and the token it was made with.
 */
module TelegramServer {
  import opened Wrappers
  import opened Session

  const NotInitialized := "Telegram bot not initialized"

  /** The Telegram bot client, opaque. */
  class TelegramBot {
    const token: string

    constructor (token: string)
      ensures this.token == token
    {
      this.token := token;
    }
  }

  class TelegramService {
    var botInstance: TelegramBot?

    /** The module is loaded with no bot instance. */
    constructor ()
      ensures botInstance == null
    {
      botInstance := null;
    }

    /**
     * `initialize`: creates a bot from the token only when there is none; otherwise keeps
     * the existing one. Either way it returns the current instance.
     */
    method Initialize(token: string) returns (bot: TelegramBot)
      modifies this
      ensures botInstance == bot
      ensures old(botInstance) != null ==> bot == old(botInstance)
      ensures old(botInstance) == null ==> fresh(bot) && bot.token == token
    {
      if botInstance == null {
        botInstance := new TelegramBot(token);
      }
      bot := botInstance;
    }

    /**
     * `sendAuthCode`: refused while there is no bot; otherwise the session id for the
     * phone number at the supplied clock reading.
     */
    method SendAuthCode(phoneNumber: string, now: nat) returns (r: Result<string, string>)
      ensures r.Failure? <==> botInstance == null
      ensures r.Failure? ==> r.error == NotInitialized
      ensures r.Success? ==> r.value == SessionId(now, phoneNumber)
    {
      if botInstance == null {
        return Failure(NotInitialized);
      }
      return Success(SessionId(now, phoneNumber));
    }

    /** `cleanup`: drops the bot if there is one, and does nothing otherwise. */
    method Cleanup()
      modifies this
      ensures botInstance == null
      ensures old(botInstance) == null ==> unchanged(this)
    {
      if botInstance != null {
        botInstance := null;
      }
    }
  }

  /**
   * The life cycle: initialising twice keeps the first bot, an initialised service issues
   * session ids, and after cleanup it refuses until initialised again.
   */
  method Lifecycle(token: string, otherToken: string, phoneNumber: string, now: nat)
  {
    var service := new TelegramService();
    var r := service.SendAuthCode(phoneNumber, now);
    assert r == Failure(NotInitialized);
    var first := service.Initialize(token);
    var second := service.Initialize(otherToken);
    assert first == second && second.token == token;
    r := service.SendAuthCode(phoneNumber, now);
    assert r == Success(SessionId(now, phoneNumber));
    service.Cleanup();
    r := service.SendAuthCode(phoneNumber, now);
    assert r == Failure(NotInitialized);
    var third := service.Initialize(otherToken);
    assert third != first && third.token == otherToken;
    r := service.SendAuthCode(phoneNumber, now);
    assert r.Success?;
  }
}

=== FILE: text.dfy ===
/**
 * The JavaScript string operations the application relies on, over `string` (a sequence of
 * characters): `split` on a one-character separator, the digit filter
 * `replace(/[^0-9]/g, '')`, the decimal rendering of a non-negative integer in a template
 * literal, and `toUpperCase` restricted to ASCII letters.
 */
module Text {

  // ---------------------------------------------------------------------------------------
  // Splitting on a one-character separator (String.prototype.split with a string argument)
  // ---------------------------------------------------------------------------------------

  /** The inverse of `Split`: the segments glued back together with the separator. */
  function Join(segments: seq<string>, sep: char): string
    requires |segments| >= 1
  {
    if |segments| == 1 then segments[0] else segments[0] + [sep] + Join(segments[1..], sep)
  }

  /**
   * `s.split(sep)`: the maximal separator-free segments of `s`, in order. There is always at
   * least one segment (the empty string splits into `[""]`), gluing them back gives `s`, and
   * there is a single segment exactly when `s` holds no separator.
   */
  function Split(s: string, sep: char): (r: seq<string>)
    ensures |r| >= 1
    ensures forall i :: 0 <= i < |r| ==> sep !in r[i]
    ensures Join(r, sep) == s
    ensures |r| == 1 <==> sep !in s
    decreases |s|
  {
    if |s| == 0 then
      [[]]
    else if s[0] == sep then
      [[]] + Split(s[1..], sep)
    else
      var rest := Split(s[1..], sep);
      [[s[0]] + rest[0]] + rest[1..]
  }

  /**
   * `s.split(sep)[0]`: the part of `s` before its first separator (all of `s` when it has
   * none). It is empty exactly when `s` is empty or starts with the separator.
   */
  function FirstSegment(s: string, sep: char): (r: string)
    ensures |r| <= |s| && s[..|r|] == r
    ensures sep !in r
    ensures |r| < |s| ==> s[|r|] == sep
    ensures r == [] <==> (s == [] || s[0] == sep)
  {
    var segments := Split(s, sep);
    if |segments| == 1 then
      segments[0]
    else
      assert s == segments[0] + ([sep] + Join(segments[1..], sep));
      segments[0]
  }

  /** A separator-free string is a single segment. */
  lemma {:induction false} SplitNoSeparator(s: string, sep: char)
    requires sep !in s
    ensures Split(s, sep) == [s]
  {
    if |s| > 0 {
      SplitNoSeparator(s[1..], sep);
    }
  }

  /** A separator-free prefix followed by a separator becomes the first segment. */
  lemma {:induction false} SplitAfterPrefix(a: string, sep: char, b: string)
    requires sep !in a
    ensures Split(a + [sep] + b, sep) == [a] + Split(b, sep)
    decreases |a|
  {
    if |a| == 0 {
      assert a + [sep] + b == [sep] + b;
      assert ([sep] + b)[1..] == b;
    } else {
      assert (a + [sep] + b)[1..] == a[1..] + [sep] + b;
      SplitAfterPrefix(a[1..], sep, b);
      assert [a[0]] + a[1..] == a;
    }
  }

  // ---------------------------------------------------------------------------------------
  // The digit filter: phoneNumber.replace(/[^0-9]/g, '')
  // ---------------------------------------------------------------------------------------

  predicate IsDigit(c: char) {
    '0' <= c <= '9'
  }

  predicate AllDigits(s: string) {
    forall i :: 0 <= i < |s| ==> IsDigit(s[i])
  }

  /**
   * The ASCII digits of `s`, in the order they occur: nothing but digits survives and every
   * digit of `s` survives (as many `'7'`s come out as went in).
   */
  function Digits(s: string): (r: string)
    ensures AllDigits(r)
    ensures |r| <= |s|
    ensures forall c :: IsDigit(c) ==> multiset(r)[c] == multiset(s)[c]
  {
    if s == [] then
      []
    else
      assert s == [s[0]] + s[1..];
      if IsDigit(s[0]) then [s[0]] + Digits(s[1..]) else Digits(s[1..])
  }

  /** The filter distributes over concatenation: it works character by character, in order. */
  lemma {:induction false} DigitsAppend(a: string, b: string)
    ensures Digits(a + b) == Digits(a) + Digits(b)
  {
    if a == [] {
      assert a + b == b;
    } else {
      assert (a + b)[1..] == a[1..] + b;
      DigitsAppend(a[1..], b);
    }
  }

  /** A string made of digits only passes the filter unchanged. */
  lemma {:induction false} DigitsOfDigits(s: string)
    requires AllDigits(s)
    ensures Digits(s) == s
  {
    if s != [] {
      DigitsOfDigits(s[1..]);
    }
  }

  /** Filtering twice is filtering once. */
  lemma DigitsIdempotent(s: string)
    ensures Digits(Digits(s)) == Digits(s)
  {
    DigitsOfDigits(Digits(s));
  }

  /** Inserting a non-digit anywhere does not change the filtered string. */
  lemma IgnoresNonDigit(a: string, c: char, b: string)
    requires !IsDigit(c)
    ensures Digits(a + [c] + b) == Digits(a + b)
  {
    assert Digits([c]) == [] by {
      assert [c] == [c] + [];
    }
    calc {
      Digits(a + [c] + b);
      { DigitsAppend(a + [c], b); }
      Digits(a + [c]) + Digits(b);
      { DigitsAppend(a, [c]); }
      Digits(a) + Digits(b);
      { DigitsAppend(a, b); }
      Digits(a + b);
    }
  }

  // ---------------------------------------------------------------------------------------
  // Decimal rendering of a non-negative integer, as `${n}` does, and its inverse
  // ---------------------------------------------------------------------------------------

  function DigitChar(d: nat): (c: char)
    requires d < 10
    ensures IsDigit(c)
  {
    ('0' as int + d) as char
  }

  function DigitValue(c: char): (d: nat)
    requires IsDigit(c)
    ensures d < 10
  {
    c as int - '0' as int
  }

  /** `${n}` for a non-negative integer: a non-empty string of digits with no leading zero. */
  function DecimalString(n: nat): (r: string)
    ensures |r| >= 1
    ensures AllDigits(r)
    ensures |r| > 1 ==> r[0] != '0'
  {
    if n < 10 then [DigitChar(n)] else DecimalString(n / 10) + [DigitChar(n % 10)]
  }

  /** The value of a string of decimal digits, most significant first. */
  function ParseDecimal(s: string): nat
    requires AllDigits(s)
  {
    if s == [] then 0 else ParseDecimal(s[..|s| - 1]) * 10 + DigitValue(s[|s| - 1])
  }

  /** Rendering then parsing gives the number back, so distinct numbers render differently. */
  lemma {:induction false} DecimalRoundTrip(n: nat)
    ensures ParseDecimal(DecimalString(n)) == n
  {
    var r := DecimalString(n);
    if n < 10 {
      assert r[..|r| - 1] == [];
    } else {
      DecimalRoundTrip(n / 10);
      assert r[..|r| - 1] == DecimalString(n / 10);
    }
  }

  // ---------------------------------------------------------------------------------------
  // toUpperCase, restricted to ASCII letters
  // ---------------------------------------------------------------------------------------

  function ToUpper(c: char): (u: char)
    ensures 'a' <= c <= 'z' ==> u as int == c as int - 32
    ensures !('a' <= c <= 'z') ==> u == c
  {
    if 'a' <= c <= 'z' then (c as int - 32) as char else c
  }

  /** `s.toUpperCase()`: the same length, every lower-case ASCII letter raised. */
  function Upper(s: string): (r: string)
    ensures |r| == |s|
    ensures forall i :: 0 <= i < |s| ==> r[i] == ToUpper(s[i])
  {
    seq(|s|, i requires 0 <= i < |s| => ToUpper(s[i]))
  }
}

=== FILE: wrappers.dfy ===
/** Failure-carrying result types shared by the modules of this model. */
module Wrappers {

  datatype Option<+T> = None | Some(value: T)

  /** The outcome of an operation that either yields a value or throws with a message. */
  datatype Result<+R, +E> = Success(value: R) | Failure(error: E)
}
